=== FILE: README.md ===
# Hydra login/consent and Kratos self-service routes, modelled in Dafny

This project models the request handlers of a Node/Express UI that sits between
ORY Hydra (the OAuth2/OIDC authorization server) and ORY Kratos (the identity
service):

- **Login leg** (`src/routes/hydra/login.ts`). Given a Hydra login challenge,
  the handler does one of four things:
  - it fails;
  - it accepts because Hydra says `skip`;
  - it restarts the Kratos login with a fresh anti-forgery state;
  - it accepts with the identity Kratos reports.

  The state plays the role of OAuth's `state` parameter (section 10.12 of
  RFC 6749). It is bound to the server-side session and echoed back through
  Kratos's `return_to` URL.
- **Consent leg** (`src/routes/hydra/consent.ts`). This covers the ID-token
  claim builder, the GET skip-or-prompt decision, and the POST allow-or-deny
  decision. A denial uses the `access_denied` code of section 4.1.2.1 of
  RFC 6749.
- **Self-service proxies** (`auth.ts`, `settings.ts`, `recovery.ts`,
  `verification.ts`, `error.ts`). These map "flow id present?", Kratos's HTTP
  status and its body onto one of these results: restart the flow, fail,
  render, or (on the error page) reject or stay silent.

Every handler is a pure function. It takes:

- a snapshot of what it reads from the request;
- the replies the upstream calls would give (`Result.Ok` for a body,
  `Result.Err` for a thrown client error);
- for the login leg, the random bytes and the outcome of saving the session.

It returns a `Reply`, which holds the `Outcome` the browser sees (`Redirect`,
`Render`, `Fail` for `next(err)`, `Rejected`, or `Swallowed`) and the ordered
list of upstream `Call`s it issued.

Layout, one module per file:

| file | module | models |
|---|---|---|
| values.dfy | `JsValues` | optional values, upstream results, query/form parameters and their truthiness |
| strings.dfy | `Strings` | `Array.prototype.indexOf` and `String.prototype.indexOf` |
| hex.dfy | `Hex` | `Buffer.toString('hex')` and its inverse |
| urls.dfy | `Urls` | query lists, WHATWG `URLSearchParams.set`, Express's view of a key |
| sorting.dfy | `Sorting` | sorting form fields by an abstract position |
| protocol.dfy | `Protocol` | configuration, Hydra and Kratos bodies, calls, outcomes |
| login.dfy | `HydraLogin` | `hydraLogin`, `redirectToLogin` |
| consent.dfy | `HydraConsent` | `createHydraSession`, `hydraGetConsent`, `hydraPostConsent` |
| selfservice.dfy | `SelfService` | the `methodConfig` helpers |
| auth.dfy, settings.dfy, recovery.dfy, verification.dfy, error_page.dfy | `Auth`, `Settings`, `Recovery`, `Verification`, `ErrorPage` | the self-service route handlers |

## Behaviour worth knowing

- A failed Kratos `whoami` goes to `next(error)`. It does not restart the
  Kratos login.
- After a denial, `hydraPostConsent` has no `return`. It goes on to fetch the
  consent request again and accept it (see Findings).
- On POST, the ID-token session is built from Hydra's `requestedScope`, not
  from the scopes the user selected. `rememberFor` is always 3600.
- The login handler checks, in this order:
  1. the state query parameter;
  2. the Kratos cookie;
  3. that the state equals the stored one.

  All three failures lead to the same restart.
- Each route handler decides for itself which Kratos statuses mean a stale
  flow id:
  - login, registration and settings restart on 404, 410 and 403;
  - recovery and verification restart only on 404;
  - the error page goes home only on 404.

## Model

| member | source | states |
|---|---|---|
| `Strings.IndexOf` | src/routes/hydra/consent.ts:17 | `indexOf` is -1 exactly when the element is absent. Otherwise it is the first position holding the element. |
| `Strings.FindSubstring` | src/routes/auth.ts:70-73 | The substring search is -1 exactly when the text does not occur anywhere. Otherwise it is an occurrence. |
| `Hex.Encode` | src/routes/hydra/login.ts:32 | The hex rendering of n bytes is 2n characters long, and every character is a lower-case hex digit. |
| `Hex.DecodeEncode` | src/routes/hydra/login.ts:32 | Hex rendering loses nothing: decoding the digits gives back the bytes. |
| `Hex.EncodeInjective` | src/routes/hydra/login.ts:32 | Different random byte strings give different state strings. |
| `Urls.QueryParam` | src/routes/hydra/login.ts:63 | A handler sees a query key as undefined when it is absent, as a string when it occurs once, and as the array of its values, in order, when it is repeated. |
| `Urls.SetGetAll` | src/routes/hydra/login.ts:47 | After `searchParams.set`, the key holds exactly the new value. Old values and duplicates are gone. |
| `Urls.SetKeepsOthers` | src/routes/hydra/login.ts:47 | `set` does not change the values of any other key. |
| `Urls.SetKeepsRest` | src/routes/hydra/login.ts:47 | `set` keeps the pairs under other names unchanged and in their order. |
| `Urls.SetInPlace` | src/routes/hydra/login.ts:47 | When the key is present, `set` gives the first pair under it the new value in that same position. It drops every later pair under the key and keeps all other pairs in order. |
| `Urls.SetThenParam` | src/routes/hydra/login.ts:103 | After `set`, the next request's handler reads the key as exactly the string that was set. |
| `Sorting.SortBy` | src/routes/auth.ts:57 | Sorting by field position gives a sorted permutation of the fields. |
| `HydraLogin.KratosLoginUrl` | src/routes/hydra/login.ts:50-53 | The Kratos redirect targets `<kratos.browser>/self-service/browser/flows/login`. Its query is exactly `refresh=true`, `hydra=true` and `return_to`, in that order. |
| `HydraLogin.MintState` | src/routes/hydra/login.ts:32 | The state written from 48 random bytes is 96 lower-case hex digits, and decoding it gives back exactly those bytes. |
| `HydraLogin.RedirectToLogin` | src/routes/hydra/login.ts:15-59 | It takes the freshly minted state, a 96-hex-digit token. With no session: an error and no write. With a session, the one write saves that state, even when the save then reports an error. The handler redirects iff a session exists and the save succeeded, and the redirect's `return_to` carries that state. A failed save is surfaced as an error. |
| `HydraLogin.HandleLogin` | src/routes/hydra/login.ts:61-148 | A non-standalone mode fails first, with no call. A missing or non-string challenge fails with no call. A failed fetch of the login request goes to `next` with no further call. On `skip` the handler makes exactly a get and an accept with `String(subject)` and no context, then redirects to Hydra's `redirectTo`. An accept happens only on `skip`, or with a matching state and a Kratos cookie; otherwise it carries the whoami identity id and body. Whenever an accept is made, a failed accept goes to `next` and a successful one redirects to its `redirectTo`. Kratos is only asked once the checks pass. A redirect to Kratos means the checks failed and the state was saved first. Once the checks pass, the handler always asks Kratos with the cookie: a failed whoami goes to `next` after exactly the get and the whoami (never a restart), and a successful one leads to exactly get, whoami and an accept with the Kratos identity. |
| `HydraLogin.RestartWithoutMatchingState` | src/routes/hydra/login.ts:103-125 | When `skip` is false and the state is missing or differs, or the cookie is missing, the handler restarts through `redirectToLogin`. It makes no accept and no whoami call. |
| `HydraLogin.AcceptWithMatchingState` | src/routes/hydra/login.ts:127-144 | A matching state plus a cookie gives exactly: get, whoami with that cookie, accept with the Kratos identity. Then it redirects to Hydra's `redirectTo`. |
| `HydraLogin.ReturnToCarriesState` | src/routes/hydra/login.ts:45-47 | `return_to` keeps the login challenge and carries exactly the new state as `hydra_login_state`. |
| `HydraLogin.ReturnAfterRestartAccepts` | src/routes/hydra/login.ts:45-144 | A browser that follows `return_to` gets accepted with its Kratos identity. This needs the session holding the saved state, a Kratos cookie, and Hydra still saying no skip. |
| `HydraConsent.CreateHydraSession` | src/routes/hydra/consent.ts:15-32 | An email claim is present iff `email` was requested and there is at least one verifiable address (missing counts as none). The claim is the first address. A context without an identity throws. |
| `HydraConsent.GetConsent` | src/routes/hydra/consent.ts:34-84 | A missing challenge fails with no call. A failed fetch goes to `next` with no further call. On `skip` the handler makes exactly a get and an accept that grants `requestedScope` and `requestedAccessTokenAudience` verbatim, uses the `createHydraSession` session and leaves `remember` and `rememberFor` unset; it then redirects to the accept's `redirectTo`, or goes to `next` if the accept fails. On `skip` with a context that has no identity, the session builder throws and nothing is accepted. Only `skip` accepts. Without skip the handler renders `consent` and mutates nothing. It never rejects. |
| `HydraConsent.PromptIsRepeatable` | src/routes/hydra/consent.ts:71-80 | The prompt path issues only the read. Asking again with Hydra unchanged gives the same reply. |
| `HydraConsent.NormalizeScope` | src/routes/hydra/consent.ts:104-107 | An array selection is kept element by element. A single string, or nothing, becomes a one-element list. |
| `HydraConsent.Grant` | src/routes/hydra/consent.ts:104-134 | The accept grants the normalised selection for the freshly fetched audience, with `remember = Boolean(remember)` and `rememberFor = 3600`. The session is built from `requestedScope`. A failed fetch goes to `next` with no accept. A fetched context without an identity makes `createHydraSession` throw, which goes to `next` with no accept. Once the accept is made, its answer decides between the redirect and `next`. |
| `HydraConsent.PostConsent` | src/routes/hydra/consent.ts:86-136 | Any submit other than `Allow access` first rejects with `access_denied`. The browser follows the reject's redirect, and a failed reject is an error. After a successful reject, the handler still issues every call of the grant path, whatever Hydra answers them. Allowing is the grant path alone. |
| `HydraConsent.AllowAccepts` | src/routes/hydra/consent.ts:110-131 | On allow, the handler makes exactly one fetch and one accept with the grant above, then redirects to the accept's `redirectTo`. |
| `HydraConsent.DenyFallsThroughToAccept` | src/routes/hydra/consent.ts:92-110 | As written, a successful reject is followed by a fetch and an accept for the same challenge. |
| `HydraConsent.PostConsentIntended` | src/routes/hydra/consent.ts:92-102 | With the return in place, a denial issues only the reject, and redirects iff the reject succeeded. |
| `HydraConsent.IntendedDenyOnlyRejects` | src/routes/hydra/consent.ts:92-101 | With the return in place, a denial never accepts and follows the reject's redirect. |
| `HydraConsent.IntendedAgreesOnAllow` | src/routes/hydra/consent.ts:104-131 | The corrected handler and the handler as written agree whenever access is allowed. |
| `SelfService.Lookup` | src/routes/settings.ts:30 | A method's config is returned only if the flow has that method, and then it is that method's config. |
| `SelfService.ActiveMethodConfig` | src/routes/auth.ts:64-68 | The config is shown when `active` is unset or equals the key. Otherwise nothing is shown. |
| `SelfService.ActiveFilterShowsOnlyActive` | src/routes/recovery.ts:35-39 | Once a method is active, only its form is shown. |
| `Auth.SortPasswordFields` | src/routes/auth.ts:54-58 | Only the password fields change, into a sorted permutation of themselves. Everything else is kept. |
| `Auth.HandleAuth` | src/routes/auth.ts:13-85 | A missing or non-string id restarts with no fetch. The flow restarts iff the id is missing, the status is 404/410/403, or a 200 has no body. Any other non-200 status fails. A 200 with a body renders iff the flow has a `password` method; without one, reading its `config` throws a `TypeError`. A render shows the sorted flow, the active-filtered `oidc` and `password` forms, and `hydra` iff the request URL contains `hydra=true`. |
| `Settings.HandleSettings` | src/routes/settings.ts:8-41 | A falsy id restarts with no fetch. The flow restarts iff the id is falsy or the status is 404/410/403. Any other non-200 status fails. A 200 renders `settings` with the unfiltered `password`, `profile` and `oidc` forms. |
| `Settings.SettingsIgnoresActive` | src/routes/settings.ts:30-37 | The settings forms do not depend on which method is active. |
| `Recovery.HandleRecovery` | src/routes/recovery.ts:8-48 | The flow restarts iff the id is falsy or the status is 404. Every other non-200 status fails, 410 and 403 included. A 200 renders `recovery` with status 200 and the flow unchanged. The `token` form is `methods.link.config` iff no other method is active. |
| `Recovery.StaleRecoveryIsAnError` | src/routes/recovery.ts:24-28 | A 410 or 403 is an error on recovery but a restart on settings. |
| `Verification.HandleVerification` | src/routes/verification.ts:8-35 | The flow restarts iff the id is falsy or the status is 404. Any other non-200 status fails. The handler renders iff the status is 200, and then with the body unchanged. |
| `ErrorPage.HandleError` | src/routes/error.ts:8-40 | The handler goes home iff there is no error id or the status is 404. It renders `error` with status 500 iff the body has `errors`. It rejects iff the body lacks `errors`. It stays silent iff the fetch threw or there is no body. It never calls `next`. |

## Findings

| source | as written | input that shows it | evidently intended | confidence | as-written member | corrected member |
|---|---|---|---|---|---|---|
| src/routes/hydra/consent.ts:92-102 | After a denial is rejected and the browser redirected, there is no `return`, so execution continues into the grant path. | `submit = "Deny"` and a reject that succeeds: the calls are reject, get, then accept for the same challenge. | Return right after the denial redirect, so that a denial issues exactly one reject and never an accept. | high; not executed | `HydraConsent.DenyFallsThroughToAccept` | `HydraConsent.IntendedDenyOnlyRejects` |

## Left out

- Network calls to Hydra and Kratos are not made. Each call's reply is an input, and the same call kind always gets the same reply.
- Express's request and response objects, template rendering and `console` logging are not modelled. `res.status(500)` survives as the `Render` status.
- `JSON.stringify` is left out. A non-200 error carries only its status, and the error page's rejection carries no message.
- The `Host` header rewrite before `whoami` (src/routes/hydra/login.ts:128) is left out. It has no effect on any decision.
- `crypto.randomBytes(48)` becomes the `entropy` input, which must be 48 bytes. `HydraLogin.HandleLogin` mints the state from it with `HydraLogin.MintState` and hands that state to `HydraLogin.RedirectToLogin`.
- The claim that a new state differs from the old one with overwhelming probability is not modelled. It is a probability statement.
- WHATWG URL resolution is simplified. `return_to` is the base URL joined to the request path, and the base is assumed to be an origin.
- `Urls.Serialize` joins pairs without percent-encoding.
- `HydraLogin.KratosLoginUrl`: `new URL(kratos.browser + path, baseUrl)` would resolve a relative `kratos.browser` against the base URL. The model assumes `kratos.browser` is absolute, in which case the base is ignored and the href is the concatenation.
- Express's query parser is modelled only for repeated keys. Bracket syntax (`a[b]=c`) is not modelled.
- The asynchronous `session.save` becomes the `saveError` input.
- When the save fails, the model does not track that the state was already set on the in-memory session.
- `HydraConsent.PostConsent`: after a denial, the browser has already been redirected. The grant path then calls `res.redirect` again or `next(error)`, which changes nothing for the browser. The reply therefore keeps the first response and shows the rest only as calls.
- The POST consent `challenge` field is modelled as a string. Hydra's client refusing an undefined challenge would show up as a failed reply.
- An absent Hydra `requestedScope`, which `createHydraSession` defaults to `[]`, is represented as the empty list.
- `Auth.SortPasswordFields`: the `sortFormFields` comparator lives in a file that is not part of this model. It is represented by an abstract position per field, so the order is a total preorder. Stability of the sort is not stated.
- `config.ts` and `helpers.ts` are not part of this model. `SECURITY_MODE_STANDALONE` becomes `SecurityMode.Standalone`, and `isString` is taken to be `typeof x === 'string'`.
- The anti-forgery form token from the CSRF middleware (`req.csrfToken()`) is an input of the consent GET.
- `src/routes/dashboard.ts` is left out. It pretty-prints headers and decodes JWTs, and contains no flow logic.

=== FILE: auth.dfy ===
/** The login and registration screens (`authHandler`): fetch the Kratos
    flow named in `?request=`, restart it when Kratos no longer knows it,
    and otherwise render it with the password fields in display order and
    only the active method's form. */
module Auth {
  import opened JsValues
  import opened Protocol
  import SelfService
  import Sorting
  import Strings

  const PasswordMethod: string := "password"
  const OidcMethod: string := "oidc"

  /** Marks a flow that Hydra's login leg started. */
  const HydraMarker: string := "hydra=true"

  predicate IsAuthFlow(kind: FlowKind) {
    kind == LoginFlow || kind == RegistrationFlow
  }

  /** The password method's form fields, when it has a config with fields. */
  function PasswordFields(body: FlowBody): Option<seq<FormField>> {
    if PasswordMethod in body.methods && body.methods[PasswordMethod].config.Some? then
      body.methods[PasswordMethod].config.value.fields
    else None
  }

  /** `body.methods.password.config.fields.sort(sortFormFields)` when there
      are fields; `rank` is the position `sortFormFields` gives a field. */
  function SortPasswordFields(body: FlowBody, rank: FormField -> int): (b: FlowBody)
    requires PasswordMethod in body.methods
    ensures b.active == body.active && b.requestUrl == body.requestUrl
    ensures b.methods.Keys == body.methods.Keys
    ensures forall k :: k in body.methods && k != PasswordMethod ==> b.methods[k] == body.methods[k]
    ensures PasswordFields(body).None? ==> b == body
    ensures PasswordFields(body).Some? ==>
      && b.methods[PasswordMethod].config.Some?
      && b.methods[PasswordMethod].config.value.action == body.methods[PasswordMethod].config.value.action
      && PasswordFields(b).Some?
      && Sorting.SortedBy(PasswordFields(b).value, rank)
      && multiset(PasswordFields(b).value) == multiset(PasswordFields(body).value)
  {
    match body.methods[PasswordMethod].config
    case Some(MethodConfig(action, Some(fields))) =>
      var sorted := MethodConfig(action, Some(Sorting.SortBy(fields, rank)));
      body.(methods := body.methods[PasswordMethod := Method(Some(sorted))])
    case _ => body
  }

  /** `authHandler(type)`: `request` is `req.query.request`, `reply` what
      Kratos answers for that flow id. */
  function HandleAuth(cfg: Config, kind: FlowKind, request: Param, reply: Result<FlowResponse>, rank: FormField -> int): (r: Reply)
    requires IsAuthFlow(kind)
    // Without a usable flow id a new flow starts and Kratos is not asked.
    ensures !NonEmptyString(request) ==> r == Reply(Redirect(Href(FlowInitHref(cfg, kind))), [])
    ensures NonEmptyString(request) ==> r.calls == [GetFlow(kind, request)]
    // The flow restarts exactly when the id is missing, stale, or yields no flow.
    ensures r.outcome == Redirect(Href(FlowInitHref(cfg, kind))) <==>
      || !NonEmptyString(request)
      || (reply.Ok? && (StaleFlowStatus(reply.value.status) || (reply.value.status == 200 && reply.value.body.None?)))
    // Any other status than success or a stale flow is an error.
    ensures NonEmptyString(request) && reply.Ok? && !StaleFlowStatus(reply.value.status) && reply.value.status != 200 ==>
      r.outcome == Fail(UnexpectedStatus(reply.value.status))
    ensures NonEmptyString(request) && reply.Err? ==> r.outcome == Fail(UpstreamFailure(reply.detail))
    // A flow that came back is rendered exactly when it has a password
    // method; reading the missing method's `config` throws otherwise.
    ensures NonEmptyString(request) && reply.Ok? && reply.value.status == 200 && reply.value.body.Some? ==>
      && (r.outcome.Render? <==> PasswordMethod in reply.value.body.value.methods)
      && (PasswordMethod !in reply.value.body.value.methods ==> r.outcome.Fail? && r.outcome.failure.TypeError?)
    // A rendered flow is the fetched one, with sorted password fields,
    // only the active method's forms, and the Hydra marker detected.
    ensures r.outcome.Render? ==>
      && reply.Ok? && reply.value.status == 200 && reply.value.body.Some?
      && var body := reply.value.body.value;
         && r.outcome.status == 200 && r.outcome.template == FlowPath(kind)
         && r.outcome.view.AuthView?
         && PasswordMethod in body.methods
         && r.outcome.view.authFlow == SortPasswordFields(body, rank)
         && (r.outcome.view.hydra <==> Strings.Contains(body.requestUrl, HydraMarker))
         && r.outcome.view.password == SelfService.ActiveMethodConfig(Some(r.outcome.view.authFlow), PasswordMethod)
         && r.outcome.view.oidc == SelfService.ActiveMethodConfig(Some(r.outcome.view.authFlow), OidcMethod)
  {
    var init := Redirect(Href(FlowInitHref(cfg, kind)));
    if !NonEmptyString(request) then Reply(init, [])
    else
      var get := GetFlow(kind, request);
      match reply
      case Err(e) => Reply(Fail(UpstreamFailure(e)), [get])
      case Ok(response) =>
        if StaleFlowStatus(response.status) then Reply(init, [get])
        else if response.status != 200 then Reply(Fail(UnexpectedStatus(response.status)), [get])
        else
          match response.body
          case None => Reply(init, [get])
          case Some(body) =>
            if PasswordMethod !in body.methods then
              Reply(Fail(TypeError("Cannot read properties of undefined (reading 'config')")), [get])
            else
              var flow := SortPasswordFields(body, rank);
              var hydra := Strings.FindSubstring(flow.requestUrl, HydraMarker) != -1;
              var view := AuthView(flow, hydra,
                                   SelfService.ActiveMethodConfig(Some(flow), OidcMethod),
                                   SelfService.ActiveMethodConfig(Some(flow), PasswordMethod));
              Reply(Render(200, FlowPath(kind), view), [get])
  }
}

=== FILE: consent.dfy ===
/** The Hydra consent leg: `createHydraSession` derives the ID-token claims,
    `hydraGetConsent` either grants a remembered consent or shows the
    prompt, and `hydraPostConsent` turns the user's answer into an accept
    or a reject (with the `access_denied` code of section 4.1.2.1 of
    RFC 6749). */
module HydraConsent {
  import opened JsValues
  import opened Protocol
  import Urls
  import Strings

  const ChallengeKey: string := "consent_challenge"
  const EmailScope: string := "email"
  const AllowAccess: string := "Allow access"
  const AccessDenied: string := "access_denied"
  const DenialDescription: string := "The resource owner denied the request"

  /** How long Hydra remembers a consent given through the prompt, in seconds. */
  const RememberFor: int := 3600

  /** `context.identity.verifiableAddresses || []`. */
  function Addresses(context: KratosSession): seq<Address> {
    match context.identity.verifiableAddresses
    case Some(addresses) => addresses
    case None => []
  }

  /** `createHydraSession`: the email claim is added only when the `email`
      scope was requested and the identity has a verifiable address; the
      first address wins. Reading `identity` off a context that has none
      throws, whatever the scope. */
  function CreateHydraSession(requestedScope: seq<string>, context: Option<KratosSession>): (r: Result<HydraSession>)
    ensures r.Err? <==> context.None?
    ensures r.Ok? ==> (r.value.IdTokenEmail? <==> EmailScope in requestedScope && |Addresses(context.value)| > 0)
    ensures r.Ok? && r.value.IdTokenEmail? ==> r.value.email == Addresses(context.value)[0].value
  {
    match context
    case None => Err("Cannot read properties of undefined (reading 'verifiableAddresses')")
    case Some(session) =>
      var addresses := Addresses(session);
      if Strings.IndexOf(requestedScope, EmailScope) == -1 || |addresses| == 0 then Ok(EmptySession)
      else Ok(IdTokenEmail(addresses[0].value))
  }

  // ---------------------------------------------------------------------
  // GET: skip or prompt

  /** What `hydraGetConsent` reads from the request. */
  datatype GetRequest = GetRequest(query: seq<Urls.Pair>, csrfToken: string)

  datatype GetReplies = GetReplies(getConsentRequest: Result<ConsentInfo>, acceptConsentRequest: Result<Completed>)

  function GetChallenge(req: GetRequest): Param {
    Urls.QueryParam(req.query, ChallengeKey)
  }

  /** Hydra answered the consent request with `skip: true`. */
  predicate SkipGranted(up: GetReplies) {
    up.getConsentRequest.Ok? && up.getConsentRequest.value.skip
  }

  /** Scopes as granted: each one defined. */
  function Granted(scope: seq<string>): (g: seq<Option<string>>)
    ensures |g| == |scope|
    ensures forall i :: 0 <= i < |g| ==> g[i] == Some(scope[i])
  {
    seq(|scope|, i requires 0 <= i < |scope| => Some(scope[i]))
  }

  /** `hydraGetConsent`. */
  function GetConsent(req: GetRequest, up: GetReplies): (r: Reply)
    ensures !NonEmptyString(GetChallenge(req)) ==> r == Reply(Fail(MissingConsentChallenge), [])
    // A failed fetch of the consent request is passed on, and nothing else is asked.
    ensures NonEmptyString(GetChallenge(req)) && up.getConsentRequest.Err? ==>
      r == Reply(Fail(UpstreamFailure(up.getConsentRequest.detail)), [GetConsentRequest(GetChallenge(req).text)])
    // On skip, a context without an identity throws before anything is accepted.
    ensures NonEmptyString(GetChallenge(req)) && SkipGranted(up) && up.getConsentRequest.value.context.None? ==>
      && r.calls == [GetConsentRequest(GetChallenge(req).text)]
      && r.outcome.Fail? && r.outcome.failure.TypeError?
    // On skip with an identity, everything requested is granted and the
    // browser goes wherever Hydra's answer says; a failed accept is passed on.
    ensures NonEmptyString(GetChallenge(req)) && SkipGranted(up) && up.getConsentRequest.value.context.Some? ==>
      var ch := GetChallenge(req).text;
      var info := up.getConsentRequest.value;
      && r.calls == [GetConsentRequest(ch), AcceptConsentRequest(ch, AcceptConsent(
           Granted(info.requestedScope), info.requestedAudience,
           CreateHydraSession(info.requestedScope, info.context).value, None, None))]
      && r.outcome == (if up.acceptConsentRequest.Ok? then FollowHydra(up.acceptConsentRequest.value)
                       else Fail(UpstreamFailure(up.acceptConsentRequest.detail)))
    // Only a skipped consent is granted here, and it grants exactly what was requested.
    ensures forall c :: c in r.calls && c.AcceptConsentRequest? ==>
      && SkipGranted(up)
      && var info := up.getConsentRequest.value;
         && c.acceptConsent.grantScope == Granted(info.requestedScope)
         && c.acceptConsent.grantAudience == info.requestedAudience
         && CreateHydraSession(info.requestedScope, info.context) == Ok(c.acceptConsent.session)
         && c.acceptConsent.remember.None? && c.acceptConsent.rememberFor.None?
    // Nothing is ever rejected here.
    ensures forall c :: c in r.calls ==> !c.RejectConsentRequest?
    // Without skip the prompt is shown and nothing is mutated.
    ensures NonEmptyString(GetChallenge(req)) && up.getConsentRequest.Ok? && !up.getConsentRequest.value.skip ==>
      var info := up.getConsentRequest.value;
      && r.outcome == Render(200, "consent", ConsentView(req.csrfToken, GetChallenge(req).text,
                                                        info.requestedScope, info.subject, info.client))
      && forall c :: c in r.calls ==> !Mutates(c)
    // Every Hydra call concerns the challenge from the query.
    ensures forall c :: c in r.calls ==> c.GetConsentRequest? || c.AcceptConsentRequest?
    ensures forall c :: c in r.calls && (c.GetConsentRequest? || c.AcceptConsentRequest?) ==>
      GetChallenge(req) == Str(c.challenge)
  {
    var challenge := GetChallenge(req);
    if !NonEmptyString(challenge) then Reply(Fail(MissingConsentChallenge), [])
    else
      var ch := challenge.text;
      var get := GetConsentRequest(ch);
      match up.getConsentRequest
      case Err(e) => Reply(Fail(UpstreamFailure(e)), [get])
      case Ok(info) =>
        if info.skip then
          match CreateHydraSession(info.requestedScope, info.context)
          case Err(e) => Reply(Fail(TypeError(e)), [get])
          case Ok(session) =>
            var accept := AcceptConsentRequest(ch, AcceptConsent(
              Granted(info.requestedScope), info.requestedAudience, session, None, None));
            match up.acceptConsentRequest
            case Err(e) => Reply(Fail(UpstreamFailure(e)), [get, accept])
            case Ok(done) => Reply(FollowHydra(done), [get, accept])
        else
          Reply(Render(200, "consent", ConsentView(req.csrfToken, ch, info.requestedScope, info.subject, info.client)), [get])
  }

  /** Showing the prompt only reads from Hydra: the one call is the fetch,
      so asking again about the same, still pending challenge finds Hydra
      unchanged and shows the same prompt. */
  lemma PromptIsRepeatable(req: GetRequest, up: GetReplies, up': GetReplies)
    requires NonEmptyString(GetChallenge(req))
    requires up.getConsentRequest.Ok? && !up.getConsentRequest.value.skip
    requires up'.getConsentRequest == up.getConsentRequest
    ensures GetConsent(req, up).calls == [GetConsentRequest(GetChallenge(req).text)]
    ensures GetConsent(req, up') == GetConsent(req, up)
  {
  }

  // ---------------------------------------------------------------------
  // POST: the user's decision

  /** The form fields `hydraPostConsent` reads. The challenge is a hidden
      input and is used unchecked. */
  datatype PostRequest = PostRequest(challenge: string, submit: Param, grantScope: Param, remember: Param)

  datatype PostReplies = PostReplies(
    rejectConsentRequest: Result<Completed>,
    getConsentRequest: Result<ConsentInfo>,
    acceptConsentRequest: Result<Completed>)

  /** Any submit value other than the allow button is a denial. */
  predicate Denied(req: PostRequest) {
    req.submit != Str(AllowAccess)
  }

  /** `Array.isArray(g) ? g : [g]`: an array is kept, anything else (a
      single string, or `undefined`) becomes a one-element list. */
  function NormalizeScope(p: Param): (g: seq<Option<string>>)
    ensures p.Multi? ==> g == Granted(p.items)
    ensures !p.Multi? ==> |g| == 1
    ensures p.Str? ==> g == [Some(p.text)]
    ensures p.Missing? ==> g == [None]
  {
    match p
    case Multi(items) => Granted(items)
    case Str(s) => [Some(s)]
    case Missing => [None]
  }

  /** The grant half of `hydraPostConsent`: fetch the consent request again
      and accept the selected scopes for the requested audience. */
  function Grant(req: PostRequest, up: PostReplies): (r: Reply)
    ensures forall c :: c in r.calls ==> c == GetConsentRequest(req.challenge) || c.AcceptConsentRequest?
    ensures up.getConsentRequest.Err? ==>
      r == Reply(Fail(UpstreamFailure(up.getConsentRequest.detail)), [GetConsentRequest(req.challenge)])
    // A fetched context without an identity throws before anything is accepted.
    ensures up.getConsentRequest.Ok? && up.getConsentRequest.value.context.None? ==>
      && r.calls == [GetConsentRequest(req.challenge)]
      && r.outcome.Fail? && r.outcome.failure.TypeError?
    ensures forall c :: c in r.calls && c.AcceptConsentRequest? ==>
      r.outcome == (if up.acceptConsentRequest.Ok? then FollowHydra(up.acceptConsentRequest.value)
                    else Fail(UpstreamFailure(up.acceptConsentRequest.detail)))
    ensures forall c :: c in r.calls && c.AcceptConsentRequest? ==> c.challenge == req.challenge
    ensures forall c :: c in r.calls && c.AcceptConsentRequest? ==>
      && up.getConsentRequest.Ok?
      && var info := up.getConsentRequest.value;
         && c.acceptConsent.grantScope == NormalizeScope(req.grantScope)
         && c.acceptConsent.grantAudience == info.requestedAudience
         && CreateHydraSession(info.requestedScope, info.context) == Ok(c.acceptConsent.session)
         && c.acceptConsent.remember == Some(Truthy(req.remember))
         && c.acceptConsent.rememberFor == Some(RememberFor)
  {
    var scope := NormalizeScope(req.grantScope);
    var get := GetConsentRequest(req.challenge);
    match up.getConsentRequest
    case Err(e) => Reply(Fail(UpstreamFailure(e)), [get])
    case Ok(info) =>
      match CreateHydraSession(info.requestedScope, info.context)
      case Err(e) => Reply(Fail(TypeError(e)), [get])
      case Ok(session) =>
        var accept := AcceptConsentRequest(req.challenge, AcceptConsent(
          scope, info.requestedAudience, session, Some(Truthy(req.remember)), Some(RememberFor)));
        match up.acceptConsentRequest
        case Err(e) => Reply(Fail(UpstreamFailure(e)), [get, accept])
        case Ok(done) => Reply(FollowHydra(done), [get, accept])
  }

  /** The reject call a denial issues. */
  function Rejection(challenge: string): Call {
    RejectConsentRequest(challenge, RejectConsent(AccessDenied, DenialDescription))
  }

  /** `hydraPostConsent` as written: after a denial has been rejected and
      the browser redirected, execution carries on into the grant half.
      The browser keeps the first response; what the grant half does
      afterwards shows only in the calls. */
  function PostConsent(req: PostRequest, up: PostReplies): (r: Reply)
    ensures !Denied(req) ==> r == Grant(req, up)
    ensures Denied(req) ==> |r.calls| > 0 && r.calls[0] == Rejection(req.challenge)
    ensures Denied(req) && up.rejectConsentRequest.Ok? ==> r.outcome == FollowHydra(up.rejectConsentRequest.value)
    // A successful reject does not end the handler: the whole grant half follows.
    ensures Denied(req) && up.rejectConsentRequest.Ok? ==> r.calls == [Rejection(req.challenge)] + Grant(req, up).calls
    ensures Denied(req) && up.rejectConsentRequest.Err? ==>
      r == Reply(Fail(UpstreamFailure(up.rejectConsentRequest.detail)), [Rejection(req.challenge)])
  {
    if Denied(req) then
      var reject := Rejection(req.challenge);
      match up.rejectConsentRequest
      case Err(e) => Reply(Fail(UpstreamFailure(e)), [reject])
      case Ok(done) => Reply(FollowHydra(done), [reject] + Grant(req, up).calls)
    else Grant(req, up)
  }

  /** A granted decision accepts exactly the selected scopes (normalised to
      a list), for the audience Hydra holds, remembered for an hour if the
      box was ticked, with the session built from the requested scope. */
  lemma AllowAccepts(req: PostRequest, up: PostReplies)
    requires !Denied(req)
    requires up.getConsentRequest.Ok? && up.getConsentRequest.value.context.Some?
    requires up.acceptConsentRequest.Ok?
    ensures var info := up.getConsentRequest.value;
            var r := PostConsent(req, up);
            && r.outcome == FollowHydra(up.acceptConsentRequest.value)
            && r.calls == [GetConsentRequest(req.challenge), AcceptConsentRequest(req.challenge, AcceptConsent(
                 NormalizeScope(req.grantScope), info.requestedAudience,
                 CreateHydraSession(info.requestedScope, info.context).value,
                 Some(Truthy(req.remember)), Some(RememberFor)))]
  {
  }

  /** The fall-through: a denied consent whose reject succeeds goes on to
      fetch the consent request again and accept it for the same
      challenge. */
  lemma DenyFallsThroughToAccept(req: PostRequest, up: PostReplies)
    requires Denied(req)
    requires up.rejectConsentRequest.Ok? && up.getConsentRequest.Ok?
    requires up.getConsentRequest.value.context.Some?
    ensures var r := PostConsent(req, up);
            && r.outcome == FollowHydra(up.rejectConsentRequest.value)
            && |r.calls| == 3
            && r.calls[0] == Rejection(req.challenge)
            && r.calls[1] == GetConsentRequest(req.challenge)
            && r.calls[2].AcceptConsentRequest? && r.calls[2].challenge == req.challenge
  {
  }

  /** `hydraPostConsent` with the return after the denial redirect that the
      handler evidently intends. */
  function PostConsentIntended(req: PostRequest, up: PostReplies): (r: Reply)
    ensures !Denied(req) ==> r == Grant(req, up)
    ensures Denied(req) ==> r.calls == [Rejection(req.challenge)]
    ensures Denied(req) ==> (r.outcome.Redirect? <==> up.rejectConsentRequest.Ok?)
  {
    if Denied(req) then
      var reject := Rejection(req.challenge);
      match up.rejectConsentRequest
      case Err(e) => Reply(Fail(UpstreamFailure(e)), [reject])
      case Ok(done) => Reply(FollowHydra(done), [reject])
    else Grant(req, up)
  }

  /** With the return in place a denial is final: exactly one reject with
      `access_denied`, never an accept, and the browser follows the
      reject's redirect. */
  lemma IntendedDenyOnlyRejects(req: PostRequest, up: PostReplies)
    requires Denied(req)
    ensures forall c :: c in PostConsentIntended(req, up).calls ==> !c.AcceptConsentRequest?
    ensures up.rejectConsentRequest.Ok? ==>
      PostConsentIntended(req, up).outcome == FollowHydra(up.rejectConsentRequest.value)
  {
  }

  /** The two definitions differ only on denials. */
  lemma IntendedAgreesOnAllow(req: PostRequest, up: PostReplies)
    requires !Denied(req)
    ensures PostConsentIntended(req, up) == PostConsent(req, up)
  {
  }
}

=== FILE: error_page.dfy ===
/** The self-service error page: show Kratos's error, go home when there
    is none, and otherwise give up without answering. */
module ErrorPage {
  import opened JsValues
  import opened Protocol

  /** The error route's handler: `error` is `req.query.error`. */
  function HandleError(cfg: Config, error: Param, reply: Result<ErrorResponse>): (r: Reply)
    ensures !Truthy(error) ==> r == Reply(Redirect(Href(cfg.baseUrl)), [])
    ensures Truthy(error) ==> r.calls == [GetError(error)]
    // Home exactly when there is no error id or Kratos does not know it.
    ensures r.outcome == Redirect(Href(cfg.baseUrl)) <==>
      !Truthy(error) || (reply.Ok? && reply.value.status == 404)
    // The error page, with status 500, exactly when the body lists errors.
    ensures r.outcome.Render? <==>
      && Truthy(error) && reply.Ok? && reply.value.status != 404
      && reply.value.body.Some? && reply.value.body.value.errors.Some?
    ensures r.outcome.Render? ==>
      r.outcome == Render(500, "error", ErrorView(reply.value.body.value.errors.value))
    // A body without `errors` is a rejected promise: no redirect, no page.
    ensures r.outcome == Rejected <==>
      && Truthy(error) && reply.Ok? && reply.value.status != 404
      && reply.value.body.Some? && reply.value.body.value.errors.None?
    // A thrown fetch, or a missing body, is swallowed.
    ensures r.outcome == Swallowed <==>
      Truthy(error) && (reply.Err? || (reply.value.status != 404 && reply.value.body.None?))
    // `next` is never called.
    ensures !r.outcome.Fail?
  {
    if !Truthy(error) then Reply(Redirect(Href(cfg.baseUrl)), [])
    else
      var get := GetError(error);
      match reply
      case Err(_) => Reply(Swallowed, [get])
      case Ok(response) =>
        if response.status == 404 then Reply(Redirect(Href(cfg.baseUrl)), [get])
        else
          match response.body
          // `'errors' in undefined` throws, and the exception is swallowed.
          case None => Reply(Swallowed, [get])
          case Some(container) =>
            match container.errors
            case Some(errors) => Reply(Render(500, "error", ErrorView(errors)), [get])
            case None => Reply(Rejected, [get])
  }
}

=== FILE: hex.dfy ===
/** Node's `Buffer.toString('hex')`: every byte becomes two lower-case
    hexadecimal digits, high nibble first. The decoder exists to show that
    the encoding loses nothing. */
module Hex {
  import opened JsValues

  newtype byte = x: int | 0 <= x < 256

  const Digits: string := "0123456789abcdef"

  predicate IsHexDigit(c: char) {
    c in Digits
  }

  /** The value of a lower-case hexadecimal digit. */
  function DigitValue(c: char): (r: Option<nat>)
    ensures r.Some? <==> IsHexDigit(c)
    ensures r.Some? ==> r.value < 16 && Digits[r.value] == c
  {
    if '0' <= c <= '9' then Some((c - '0') as nat)
    else if 'a' <= c <= 'f' then Some((c - 'a') as nat + 10)
    else None
  }

  function Encode(bs: seq<byte>): (s: string)
    ensures |s| == 2 * |bs|
    ensures forall i :: 0 <= i < |s| ==> IsHexDigit(s[i])
  {
    if |bs| == 0 then ""
    else
      var b := bs[0] as int;
      [Digits[b / 16], Digits[b % 16]] + Encode(bs[1..])
  }

  /** Reads pairs of lower-case hexadecimal digits back into bytes. */
  function Decode(s: string): (r: Option<seq<byte>>)
    ensures r.Some? ==> 2 * |r.value| == |s|
    decreases |s|
  {
    if |s| < 2 then (if |s| == 0 then Some([]) else None)
    else
      var hi := DigitValue(s[0]);
      var lo := DigitValue(s[1]);
      var rest := Decode(s[2..]);
      if hi.Some? && lo.Some? && rest.Some? then Some([(hi.value * 16 + lo.value) as byte] + rest.value)
      else None
  }

  /** Each digit reads back as the nibble it was written for. */
  lemma DigitRoundTrip(n: nat)
    requires n < 16
    ensures DigitValue(Digits[n]) == Some(n)
  {
  }

  /** Decoding a two-digit prefix followed by a decodable rest. */
  lemma DecodeCons(hi: nat, lo: nat, rest: string, tail: seq<byte>)
    requires hi < 16 && lo < 16
    requires Decode(rest) == Some(tail)
    ensures Decode([Digits[hi], Digits[lo]] + rest) == Some([(hi * 16 + lo) as byte] + tail)
  {
    var s := [Digits[hi], Digits[lo]] + rest;
    DigitRoundTrip(hi);
    DigitRoundTrip(lo);
    assert s[2..] == rest;
  }

  lemma {:induction false} DecodeEncode(bs: seq<byte>)
    ensures Decode(Encode(bs)) == Some(bs)
  {
    if |bs| > 0 {
      var b := bs[0] as int;
      DecodeEncode(bs[1..]);
      DecodeCons(b / 16, b % 16, Encode(bs[1..]), bs[1..]);
      assert (b / 16 * 16 + b % 16) as byte == bs[0];
      assert [bs[0]] + bs[1..] == bs;
    }
  }

  /** Two different byte strings never share an encoding. */
  lemma EncodeInjective(a: seq<byte>, b: seq<byte>)
    ensures Encode(a) == Encode(b) ==> a == b
  {
    DecodeEncode(a);
    DecodeEncode(b);
  }
}

=== FILE: login.dfy ===
/** The Hydra login leg: `hydraLogin` decides whether Hydra may skip the
    login, whether the browser must first (re)authenticate at Kratos, or
    whether the Kratos session can be handed to Hydra as the login subject.
    `redirectToLogin` mints the anti-forgery state that binds a Kratos login
    round trip to this browser's server-side session, in the role OAuth's
    `state` parameter plays in section 10.12 of RFC 6749. */
module HydraLogin {
  import opened JsValues
  import opened Protocol
  import Urls
  import Hex

  const ChallengeKey: string := "login_challenge"
  const StateKey: string := "hydra_login_state"
  const KratosCookie: string := "ory_kratos_session"

  /** `crypto.randomBytes(48)` */
  const StateBytes: nat := 48

  /** The server-side session, present when `express-session` is installed. */
  datatype Session = Session(hydraLoginState: Option<string>)

  /** What the handler reads from the request: `req.url` (a path with its
      query), protocol, `Host` header, cookies and session. */
  datatype Request = Request(
    url: Urls.Url,
    protocol: string,
    host: string,
    cookies: map<string, string>,
    session: Option<Session>)

  /** The reply each upstream call would give, should the handler make it. */
  datatype Replies = Replies(
    getLoginRequest: Result<LoginInfo>,
    acceptLoginRequest: Result<Completed>,
    whoami: Result<KratosSession>)

  function Challenge(req: Request): Param {
    Urls.QueryParam(req.url.query, ChallengeKey)
  }

  function StateParam(req: Request): Param {
    Urls.QueryParam(req.url.query, StateKey)
  }

  /** `req.cookies.ory_kratos_session` is truthy. */
  predicate HasKratosCookie(req: Request) {
    KratosCookie in req.cookies && req.cookies[KratosCookie] != ""
  }

  /** The query carries a non-empty state equal to the one stored in the
      session; a missing session or stored state never matches. */
  predicate StateMatches(req: Request) {
    var p := StateParam(req);
    NonEmptyString(p) && req.session.Some? && req.session.value.hydraLoginState == Some(p.text)
  }

  /** All three checks that guard the Kratos lookup pass. */
  predicate MayResolveIdentity(req: Request) {
    StateMatches(req) && HasKratosCookie(req)
  }

  /** Hydra answered the login request with `skip: true`. */
  predicate SkipGranted(up: Replies) {
    up.getLoginRequest.Ok? && up.getLoginRequest.value.skip
  }

  /** A freshly minted state: 48 bytes as 96 lower-case hex digits. */
  ghost predicate IsStateToken(s: string) {
    |s| == 2 * StateBytes && forall i :: 0 <= i < |s| ==> Hex.IsHexDigit(s[i])
  }

  /** `crypto.randomBytes(48).toString('hex')`: the random bytes, drawn
      by the caller, written as hex. Nothing is lost in the writing. */
  function MintState(entropy: seq<Hex.byte>): (state: string)
    requires |entropy| == StateBytes
    ensures IsStateToken(state)
    ensures Hex.Decode(state) == Some(entropy)
  {
    Hex.DecodeEncode(entropy);
    Hex.Encode(entropy)
  }

  /** `config.baseUrl`, or the request's own origin when it is unset. */
  function BaseUrl(cfg: Config, req: Request): string {
    if cfg.baseUrl != "" then cfg.baseUrl else req.protocol + "://" + req.host
  }

  /** The current request's URL, absolute, with `hydra_login_state` set. */
  function ReturnTo(cfg: Config, req: Request, state: string): Urls.Url {
    Urls.Url(BaseUrl(cfg, req) + req.url.href, Urls.Set(req.url.query, StateKey, state))
  }

  /** The Kratos login flow, forced to re-authenticate, marked as a Hydra
      flow, and told where to come back to. */
  function KratosLoginUrl(cfg: Config, returnTo: Urls.Url): (u: Urls.Url)
    ensures u.href == FlowInitHref(cfg, LoginFlow)
    ensures u.query == [Urls.Pair("refresh", "true"), Urls.Pair("hydra", "true"),
                        Urls.Pair("return_to", Urls.Serialize(returnTo))]
  {
    var q0: seq<Urls.Pair> := [];
    var q1 := Urls.Set(q0, "refresh", "true");
    assert Urls.GetAll(q1, "hydra") == [];
    var q2 := Urls.Set(q1, "hydra", "true");
    assert Urls.GetAll(q2, "return_to") == [] by {
      assert q2 == [Urls.Pair("refresh", "true"), Urls.Pair("hydra", "true")];
      assert q2[1..] == [Urls.Pair("hydra", "true")];
    }
    var q3 := Urls.Set(q2, "return_to", Urls.Serialize(returnTo));
    Urls.Url(cfg.kratosBrowser + "/self-service/browser/flows/login", q3)
  }

  /** `redirectToLogin`: store the freshly minted `state` and, once the
      session is saved, send the browser to Kratos. `saveError` is what
      `session.save` reports. */
  function RedirectToLogin(cfg: Config, req: Request, state: string, saveError: Option<string>): (r: Reply)
    requires IsStateToken(state)
    ensures req.session.None? ==> r == Reply(Fail(SessionUnavailable), [])
    ensures forall c :: c in r.calls ==> c.SaveSession? && IsStateToken(c.hydraLoginState)
    ensures r.outcome.Redirect? <==> req.session.Some? && saveError.None?
    // With a session the minted state is always saved, even when the save
    // then reports an error; only a successful save leads on to Kratos,
    // with that same state in `return_to`.
    ensures req.session.Some? ==>
      && r.calls == [SaveSession(state)]
      && r.outcome == (if saveError.Some? then Fail(SessionSaveFailed(saveError.value))
                       else Redirect(Built(KratosLoginUrl(cfg, ReturnTo(cfg, req, state)))))
  {
    if req.session.None? then Reply(Fail(SessionUnavailable), [])
    else
      var save := SaveSession(state);
      match saveError
      case Some(e) => Reply(Fail(SessionSaveFailed(e)), [save])
      case None => Reply(Redirect(Built(KratosLoginUrl(cfg, ReturnTo(cfg, req, state)))), [save])
  }

  /** `hydraLogin`. `entropy` is the output of the random source and
      `saveError` the outcome of saving the session, used only when the
      handler restarts the Kratos login. */
  function HandleLogin(cfg: Config, req: Request, up: Replies, entropy: seq<Hex.byte>, saveError: Option<string>): (r: Reply)
    requires |entropy| == StateBytes
    // The deployment mode is checked before the challenge is looked at.
    ensures cfg.securityMode != Standalone ==> r == Reply(Fail(ConfigurationError), [])
    ensures cfg.securityMode == Standalone && !NonEmptyString(Challenge(req)) ==>
      r == Reply(Fail(MissingLoginChallenge), [])
    // A failed fetch of the login request is passed on, and nothing else is asked.
    ensures cfg.securityMode == Standalone && NonEmptyString(Challenge(req)) && up.getLoginRequest.Err? ==>
      r == Reply(Fail(UpstreamFailure(up.getLoginRequest.detail)), [GetLoginRequest(Challenge(req).text)])
    // On skip the login is accepted for Hydra's own subject and the browser
    // goes wherever Hydra's answer says; a failed accept is passed on.
    ensures cfg.securityMode == Standalone && NonEmptyString(Challenge(req)) && SkipGranted(up) ==>
      && r.calls == [GetLoginRequest(Challenge(req).text),
                     AcceptLoginRequest(Challenge(req).text, AcceptLogin(JsString(up.getLoginRequest.value.subject), None))]
      && r.outcome == (if up.acceptLoginRequest.Ok? then FollowHydra(up.acceptLoginRequest.value)
                       else Fail(UpstreamFailure(up.acceptLoginRequest.detail)))
    // Whenever an accept is issued, its answer decides the outcome.
    ensures (exists c :: c in r.calls && c.AcceptLoginRequest?) ==>
      r.outcome == (if up.acceptLoginRequest.Ok? then FollowHydra(up.acceptLoginRequest.value)
                    else Fail(UpstreamFailure(up.acceptLoginRequest.detail)))
    // Hydra's login request is accepted only on skip, or with a matching state and a Kratos cookie.
    ensures forall c :: c in r.calls && c.AcceptLoginRequest? ==> SkipGranted(up) || MayResolveIdentity(req)
    // On skip: only Hydra is consulted, and the subject is Hydra's own, stringified.
    ensures SkipGranted(up) ==> forall c :: c in r.calls ==> c.GetLoginRequest? || c.AcceptLoginRequest?
    ensures SkipGranted(up) ==> forall c :: c in r.calls && c.AcceptLoginRequest? ==>
      c.accept == AcceptLogin(JsString(up.getLoginRequest.value.subject), None)
    // Otherwise the subject is the Kratos identity and the context the whole whoami body.
    ensures !SkipGranted(up) ==> forall c :: c in r.calls && c.AcceptLoginRequest? ==>
      up.whoami.Ok? && c.accept == AcceptLogin(up.whoami.value.identity.id, Some(up.whoami.value))
    // Kratos is asked only after the state and cookie checks pass, with that cookie.
    ensures forall c :: c in r.calls && c.Whoami? ==>
      MayResolveIdentity(req) && c.sessionCookie == req.cookies[KratosCookie]
    // Every Hydra call concerns the challenge from the query.
    ensures forall c :: c in r.calls && (c.GetLoginRequest? || c.AcceptLoginRequest?) ==>
      Challenge(req) == Str(c.challenge)
    // A redirect to Kratos happens only when the checks failed, and only after the fresh state was saved.
    ensures r.outcome.Redirect? && r.outcome.to.Built? ==>
      !SkipGranted(up) && !MayResolveIdentity(req) && SaveSession(MintState(entropy)) in r.calls
    // Once the checks pass, Kratos is asked; a failed whoami is an error,
    // not a restart, and otherwise the Kratos identity is accepted.
    ensures && cfg.securityMode == Standalone && NonEmptyString(Challenge(req))
            && up.getLoginRequest.Ok? && !up.getLoginRequest.value.skip && MayResolveIdentity(req) ==>
      var ch := Challenge(req).text;
      var who := Whoami(req.cookies[KratosCookie]);
      if up.whoami.Err? then r == Reply(Fail(UpstreamFailure(up.whoami.detail)), [GetLoginRequest(ch), who])
      else r.calls == [GetLoginRequest(ch), who,
                       AcceptLoginRequest(ch, AcceptLogin(up.whoami.value.identity.id, Some(up.whoami.value)))]
    ensures up.whoami.Err? && (exists c :: c in r.calls && c.Whoami?) ==>
      r.outcome == Fail(UpstreamFailure(up.whoami.detail))
  {
    var challenge := Challenge(req);
    if cfg.securityMode != Standalone then Reply(Fail(ConfigurationError), [])
    else if !NonEmptyString(challenge) then Reply(Fail(MissingLoginChallenge), [])
    else
      var ch := challenge.text;
      var get := GetLoginRequest(ch);
      match up.getLoginRequest
      case Err(e) => Reply(Fail(UpstreamFailure(e)), [get])
      case Ok(info) =>
        if info.skip then
          var accept := AcceptLoginRequest(ch, AcceptLogin(JsString(info.subject), None));
          match up.acceptLoginRequest
          case Err(e) => Reply(Fail(UpstreamFailure(e)), [get, accept])
          case Ok(done) => Reply(FollowHydra(done), [get, accept])
        else if !NonEmptyString(StateParam(req)) then
          After(get, RedirectToLogin(cfg, req, MintState(entropy), saveError))
        else if !HasKratosCookie(req) then
          After(get, RedirectToLogin(cfg, req, MintState(entropy), saveError))
        else if !StateMatches(req) then
          After(get, RedirectToLogin(cfg, req, MintState(entropy), saveError))
        else
          var who := Whoami(req.cookies[KratosCookie]);
          match up.whoami
          case Err(e) => Reply(Fail(UpstreamFailure(e)), [get, who])
          case Ok(session) =>
            var accept := AcceptLoginRequest(ch, AcceptLogin(session.identity.id, Some(session)));
            match up.acceptLoginRequest
            case Err(e) => Reply(Fail(UpstreamFailure(e)), [get, who, accept])
            case Ok(done) => Reply(FollowHydra(done), [get, who, accept])
  }

  // ---------------------------------------------------------------------
  // The decision, case by case

  /** Without a matching state and a Kratos cookie, a non-skipped login
      restarts at Kratos and never reaches an accept call. */
  lemma RestartWithoutMatchingState(cfg: Config, req: Request, up: Replies, entropy: seq<Hex.byte>, saveError: Option<string>)
    requires |entropy| == StateBytes
    requires cfg.securityMode == Standalone && NonEmptyString(Challenge(req))
    requires up.getLoginRequest.Ok? && !up.getLoginRequest.value.skip
    requires !MayResolveIdentity(req)
    ensures HandleLogin(cfg, req, up, entropy, saveError)
         == After(GetLoginRequest(Challenge(req).text), RedirectToLogin(cfg, req, MintState(entropy), saveError))
    ensures forall c :: c in HandleLogin(cfg, req, up, entropy, saveError).calls ==> !c.AcceptLoginRequest? && !c.Whoami?
  {
  }

  /** With a matching state and a Kratos cookie, a non-skipped login asks
      Kratos who the user is and accepts with that identity. */
  lemma AcceptWithMatchingState(cfg: Config, req: Request, up: Replies, entropy: seq<Hex.byte>, saveError: Option<string>)
    requires |entropy| == StateBytes
    requires cfg.securityMode == Standalone && NonEmptyString(Challenge(req))
    requires up.getLoginRequest.Ok? && !up.getLoginRequest.value.skip
    requires MayResolveIdentity(req)
    requires up.whoami.Ok? && up.acceptLoginRequest.Ok?
    ensures var ch := Challenge(req).text;
            var who := up.whoami.value;
            HandleLogin(cfg, req, up, entropy, saveError) == Reply(
              FollowHydra(up.acceptLoginRequest.value),
              [GetLoginRequest(ch), Whoami(req.cookies[KratosCookie]),
               AcceptLoginRequest(ch, AcceptLogin(who.identity.id, Some(who)))])
  {
  }

  // ---------------------------------------------------------------------
  // The round trip through Kratos

  /** The URL Kratos sends the browser back to repeats the login challenge
      and carries exactly the freshly saved state. */
  lemma ReturnToCarriesState(cfg: Config, req: Request, state: string)
    ensures Urls.QueryParam(ReturnTo(cfg, req, state).query, StateKey) == Str(state)
    ensures Urls.QueryParam(ReturnTo(cfg, req, state).query, ChallengeKey) == Challenge(req)
  {
    Urls.SetThenParam(req.url.query, StateKey, state);
    Urls.SetKeepsOthers(req.url.query, StateKey, state, ChallengeKey);
  }

  /** Completing the restart: a browser that follows `return_to` with the
      session holding the state `redirectToLogin` saved (any non-empty
      string, as every minted state is) and with a Kratos cookie is
      accepted with its Kratos identity. */
  lemma ReturnAfterRestartAccepts(
    cfg: Config, req: Request, state: string,
    back: Request, up: Replies, entropy: seq<Hex.byte>, saveError: Option<string>)
    requires |entropy| == StateBytes
    requires cfg.securityMode == Standalone && NonEmptyString(Challenge(req))
    requires state != ""
    requires back.url.query == ReturnTo(cfg, req, state).query
    requires back.session == Some(Session(Some(state)))
    requires HasKratosCookie(back)
    requires up.getLoginRequest.Ok? && !up.getLoginRequest.value.skip
    requires up.whoami.Ok? && up.acceptLoginRequest.Ok?
    ensures HandleLogin(cfg, back, up, entropy, saveError).outcome == FollowHydra(up.acceptLoginRequest.value)
    ensures AcceptLoginRequest(Challenge(req).text, AcceptLogin(up.whoami.value.identity.id, Some(up.whoami.value)))
            in HandleLogin(cfg, back, up, entropy, saveError).calls
  {
    ReturnToCarriesState(cfg, req, state);
    assert StateParam(back) == Str(state);
    assert Challenge(back) == Challenge(req);
    assert MayResolveIdentity(back);
    AcceptWithMatchingState(cfg, back, up, entropy, saveError);
  }
}

=== FILE: protocol.dfy ===
/** What the route handlers exchange with the outside world: deployment
    configuration, the bodies of ORY Hydra's admin API and ORY Kratos's
    public/admin API, the upstream calls a handler issues, and the response
    it gives the browser. */
module Protocol {
  import opened JsValues
  import Urls

  // ---------------------------------------------------------------------
  // Configuration

  /** `config.securityMode`: Hydra integration only runs in standalone mode. */
  datatype SecurityMode = Standalone | OtherMode

  /** `config.baseUrl` may be empty, in which case the request's own
      protocol and host stand in for it. */
  datatype Config = Config(securityMode: SecurityMode, baseUrl: string, kratosBrowser: string)

  // ---------------------------------------------------------------------
  // ORY Kratos

  datatype Address = Address(value: string)

  /** `verifiableAddresses` is optional in the client's type. */
  datatype Identity = Identity(id: string, verifiableAddresses: Option<seq<Address>>)

  /** The `whoami` body, later forwarded to Hydra as login context. */
  datatype KratosSession = KratosSession(identity: Identity)

  datatype FormField = FormField(name: string, fieldType: string)

  datatype MethodConfig = MethodConfig(action: string, fields: Option<seq<FormField>>)

  datatype Method = Method(config: Option<MethodConfig>)

  /** A self-service flow (login, registration, settings, recovery,
      verification) as Kratos returns it. */
  datatype FlowBody = FlowBody(active: Option<string>, methods: map<string, Method>, requestUrl: string)

  datatype FlowResponse = FlowResponse(status: int, body: Option<FlowBody>)

  /** A self-service error container; `errors` is `None` when the body has
      no `errors` key at all. */
  datatype ErrorContainer = ErrorContainer(errors: Option<seq<string>>)

  datatype ErrorResponse = ErrorResponse(status: int, body: Option<ErrorContainer>)

  datatype FlowKind = LoginFlow | RegistrationFlow | SettingsFlow | RecoveryFlow | VerificationFlow

  /** The path segment after `/self-service/browser/flows/`. */
  function FlowPath(kind: FlowKind): string {
    match kind
    case LoginFlow => "login"
    case RegistrationFlow => "registration"
    case SettingsFlow => "settings"
    case RecoveryFlow => "recovery"
    case VerificationFlow => "verification/email"
  }

  /** The browser URL that starts a fresh flow of this kind at Kratos. */
  function FlowInitHref(cfg: Config, kind: FlowKind): string {
    cfg.kratosBrowser + "/self-service/browser/flows/" + FlowPath(kind)
  }

  /** Not found, gone, or forbidden: the login, registration and settings
      routes take the flow id as stale and start a new flow. */
  predicate StaleFlowStatus(status: int) {
    status == 404 || status == 410 || status == 403
  }

  // ---------------------------------------------------------------------
  // ORY Hydra

  datatype LoginInfo = LoginInfo(skip: bool, subject: Option<string>)

  datatype Client = Client(clientId: string, clientName: string)

  /** `context` is whatever the login leg handed to Hydra; `None` stands for
      a context without an `identity` object (a skipped login sends none). */
  datatype ConsentInfo = ConsentInfo(
    skip: bool,
    requestedScope: seq<string>,
    requestedAudience: seq<string>,
    subject: string,
    client: Client,
    context: Option<KratosSession>)

  /** The reply to accept and reject calls. */
  datatype Completed = Completed(redirectTo: Option<string>)

  datatype AcceptLogin = AcceptLogin(subject: string, context: Option<KratosSession>)

  /** The session data Hydra embeds in tokens: nothing, or an ID-token
      `email` claim. */
  datatype HydraSession = EmptySession | IdTokenEmail(email: string)

  /** `grantScope` entries are `None` where the form posted no scope at all
      and the handler wrapped `undefined` into a list. */
  datatype AcceptConsent = AcceptConsent(
    grantScope: seq<Option<string>>,
    grantAudience: seq<string>,
    session: HydraSession,
    remember: Option<bool>,
    rememberFor: Option<int>)

  datatype RejectConsent = RejectConsent(error: string, errorDescription: string)

  // ---------------------------------------------------------------------
  // What a handler does

  /** One upstream call, in the order issued. Saving the server-side
      session is listed too: it is the only write a handler makes of its
      own. */
  datatype Call =
    | GetLoginRequest(challenge: string)
    | AcceptLoginRequest(challenge: string, accept: AcceptLogin)
    | Whoami(sessionCookie: string)
    | SaveSession(hydraLoginState: string)
    | GetConsentRequest(challenge: string)
    | AcceptConsentRequest(challenge: string, acceptConsent: AcceptConsent)
    | RejectConsentRequest(challenge: string, reject: RejectConsent)
    | GetFlow(kind: FlowKind, request: Param)
    | GetError(id: Param)

  /** Calls that change state at Hydra or in the session store. */
  predicate Mutates(c: Call) {
    c.AcceptLoginRequest? || c.AcceptConsentRequest? || c.RejectConsentRequest? || c.SaveSession?
  }

  /** A redirect target: a string the handler passes through, or a URL it
      built itself. */
  datatype Location = Href(href: string) | Built(url: Urls.Url)

  datatype Failure =
    | ConfigurationError
    | MissingLoginChallenge
    | MissingConsentChallenge
    | SessionUnavailable
    | SessionSaveFailed(detail: string)
    | UpstreamFailure(detail: string)
    | UnexpectedStatus(status: int)
    | TypeError(detail: string)

  /** The data handed to a template. */
  datatype View =
    | ConsentView(csrfToken: string, challenge: string, requestedScope: seq<string>, user: string, client: Client)
    | AuthView(authFlow: FlowBody, hydra: bool, oidc: Option<MethodConfig>, password: Option<MethodConfig>)
    | SettingsView(flow: Option<FlowBody>, password: Option<MethodConfig>, profile: Option<MethodConfig>, oidc: Option<MethodConfig>)
    | RecoveryView(flow: Option<FlowBody>, token: Option<MethodConfig>)
    | VerificationView(flow: Option<FlowBody>)
    | ErrorView(errors: seq<string>)

  /** How a handler ends: it redirects, renders a template with a status,
      passes an error to `next`, returns a rejected promise, or swallows an
      exception and answers nothing. */
  datatype Outcome =
    | Redirect(to: Location)
    | Render(status: int, template: string, view: View)
    | Fail(failure: Failure)
    | Rejected
    | Swallowed

  datatype Reply = Reply(outcome: Outcome, calls: seq<Call>)

  /** Redirect to the URL an accept or reject call returned. */
  function FollowHydra(done: Completed): Outcome {
    Redirect(Href(JsString(done.redirectTo)))
  }

  /** `call` issued first, then whatever `r` did. */
  function After(call: Call, r: Reply): Reply
  {
    Reply(r.outcome, [call] + r.calls)
  }
}

=== FILE: recovery.dfy ===
/** The account recovery screen. Only a flow Kratos cannot find restarts;
    an expired or forbidden one is an error here. */
module Recovery {
  import opened JsValues
  import opened Protocol
  import SelfService
  import Settings

  const LinkMethod: string := "link"

  /** The recovery route's handler. */
  function HandleRecovery(cfg: Config, request: Param, reply: Result<FlowResponse>): (r: Reply)
    ensures !Truthy(request) ==> r == Reply(Redirect(Href(FlowInitHref(cfg, RecoveryFlow))), [])
    ensures Truthy(request) ==> r.calls == [GetFlow(RecoveryFlow, request)]
    // The flow restarts exactly when the id is falsy or Kratos answers 404.
    ensures r.outcome == Redirect(Href(FlowInitHref(cfg, RecoveryFlow))) <==>
      !Truthy(request) || (reply.Ok? && reply.value.status == 404)
    // 410, 403 and every other status but 404 and 200 are errors.
    ensures Truthy(request) && reply.Ok? && reply.value.status != 404 && reply.value.status != 200 ==>
      r.outcome == Fail(UnexpectedStatus(reply.value.status))
    ensures Truthy(request) && reply.Err? ==> r.outcome == Fail(UpstreamFailure(reply.detail))
    // The link form is shown only while no other method is active.
    ensures Truthy(request) && reply.Ok? && reply.value.status == 200 ==>
      && r.outcome.Render? && r.outcome.status == 200 && r.outcome.template == "recovery"
      && r.outcome.view.RecoveryView? && r.outcome.view.flow == reply.value.body
      && (SelfService.NoActiveMethod(reply.value.body) || reply.value.body.value.active == Some(LinkMethod) ==>
            r.outcome.view.token == SelfService.Lookup(reply.value.body, LinkMethod))
      && (!SelfService.NoActiveMethod(reply.value.body) && reply.value.body.value.active != Some(LinkMethod) ==>
            r.outcome.view.token.None?)
  {
    var init := Redirect(Href(FlowInitHref(cfg, RecoveryFlow)));
    if !Truthy(request) then Reply(init, [])
    else
      var get := GetFlow(RecoveryFlow, request);
      match reply
      case Err(e) => Reply(Fail(UpstreamFailure(e)), [get])
      case Ok(response) =>
        if response.status == 404 then Reply(init, [get])
        else if response.status != 200 then Reply(Fail(UnexpectedStatus(response.status)), [get])
        else
          var body := response.body;
          Reply(Render(200, "recovery", RecoveryView(body, SelfService.ActiveMethodConfig(body, LinkMethod))), [get])
  }

  /** A flow that has expired or is forbidden restarts on the settings
      screen but is an error on the recovery screen. */
  lemma StaleRecoveryIsAnError(cfg: Config, request: Param, response: FlowResponse)
    requires Truthy(request)
    requires response.status == 410 || response.status == 403
    ensures HandleRecovery(cfg, request, Ok(response)).outcome == Fail(UnexpectedStatus(response.status))
    ensures Settings.HandleSettings(cfg, request, Ok(response)).outcome == Redirect(Href(FlowInitHref(cfg, SettingsFlow)))
  {
  }
}

=== FILE: selfservice.dfy ===
/** What the self-service routes share: looking up a method's form
    configuration in a Kratos flow, with or without hiding the methods that
    are not the active one. */
module SelfService {
  import opened JsValues
  import opened Protocol

  /** `body?.methods[key]?.config`. */
  function Lookup(body: Option<FlowBody>, key: string): (r: Option<MethodConfig>)
    ensures r.Some? ==> body.Some? && key in body.value.methods && body.value.methods[key].config == r
    ensures body.Some? && key in body.value.methods ==> r == body.value.methods[key].config
  {
    match body
    case None => None
    case Some(b) => if key in b.methods then b.methods[key].config else None
  }

  /** `!body?.active`: no method has been tried yet in this flow. */
  predicate NoActiveMethod(body: Option<FlowBody>) {
    body.None? || body.value.active.None? || body.value.active == Some("")
  }

  /** The `methodConfig` helper of the login, registration and recovery
      routes: once a method is active, every other method is hidden. */
  function ActiveMethodConfig(body: Option<FlowBody>, key: string): (r: Option<MethodConfig>)
    ensures NoActiveMethod(body) || body.value.active == Some(key) ==> r == Lookup(body, key)
    ensures !NoActiveMethod(body) && body.value.active != Some(key) ==> r.None?
  {
    if (body.Some? && body.value.active == Some(key)) || NoActiveMethod(body) then Lookup(body, key)
    else None
  }

  /** With one method active, exactly that method's configuration is
      shown: every key but the active one is hidden, and the active one is
      shown as the flow holds it. */
  lemma ActiveFilterShowsOnlyActive(body: FlowBody, key: string, other: string)
    requires body.active == Some(key) && key != ""
    requires other != key
    ensures ActiveMethodConfig(Some(body), key) == Lookup(Some(body), key)
    ensures ActiveMethodConfig(Some(body), other).None?
  {
  }
}

=== FILE: settings.dfy ===
/** The account settings screen (`settingsHandler`). Unlike the login
    screen it shows every method's form, whichever one is active. */
module Settings {
  import opened JsValues
  import opened Protocol
  import SelfService

  /** `settingsHandler`: `request` is `req.query.request`, `reply` what
      Kratos answers for that flow id. */
  function HandleSettings(cfg: Config, request: Param, reply: Result<FlowResponse>): (r: Reply)
    // A falsy flow id starts a new flow and Kratos is not asked.
    ensures !Truthy(request) ==> r == Reply(Redirect(Href(FlowInitHref(cfg, SettingsFlow))), [])
    ensures Truthy(request) ==> r.calls == [GetFlow(SettingsFlow, request)]
    // The flow restarts exactly when the id is falsy or stale.
    ensures r.outcome == Redirect(Href(FlowInitHref(cfg, SettingsFlow))) <==>
      !Truthy(request) || (reply.Ok? && StaleFlowStatus(reply.value.status))
    ensures Truthy(request) && reply.Ok? && !StaleFlowStatus(reply.value.status) && reply.value.status != 200 ==>
      r.outcome == Fail(UnexpectedStatus(reply.value.status))
    ensures Truthy(request) && reply.Err? ==> r.outcome == Fail(UpstreamFailure(reply.detail))
    // A successful fetch renders the password, profile and OIDC forms as the flow holds them.
    ensures Truthy(request) && reply.Ok? && reply.value.status == 200 ==>
      var body := reply.value.body;
      r.outcome == Render(200, "settings", SettingsView(body,
        SelfService.Lookup(body, "password"), SelfService.Lookup(body, "profile"), SelfService.Lookup(body, "oidc")))
  {
    var init := Redirect(Href(FlowInitHref(cfg, SettingsFlow)));
    if !Truthy(request) then Reply(init, [])
    else
      var get := GetFlow(SettingsFlow, request);
      match reply
      case Err(e) => Reply(Fail(UpstreamFailure(e)), [get])
      case Ok(response) =>
        if StaleFlowStatus(response.status) then Reply(init, [get])
        else if response.status != 200 then Reply(Fail(UnexpectedStatus(response.status)), [get])
        else
          var body := response.body;
          var view := SettingsView(body,
            SelfService.Lookup(body, "password"),
            SelfService.Lookup(body, "profile"),
            SelfService.Lookup(body, "oidc"));
          Reply(Render(200, "settings", view), [get])
  }

  /** Which method is active makes no difference to the settings screen:
      two flows that differ only in `active` show the same forms. */
  lemma SettingsIgnoresActive(cfg: Config, request: Param, response: FlowResponse, active: Option<string>)
    requires Truthy(request) && response.status == 200 && response.body.Some?
    ensures var other := response.(body := Some(response.body.value.(active := active)));
            var a := HandleSettings(cfg, request, Ok(response)).outcome.view;
            var b := HandleSettings(cfg, request, Ok(other)).outcome.view;
            a.password == b.password && a.profile == b.profile && a.oidc == b.oidc
  {
  }
}

=== FILE: sorting.dfy ===
/** Sorting a sequence by an integer key: the shape of
    `fields.sort(sortFormFields)`. The comparator is not part of this
    model; the key function is an assumed abstract position per field. */
module Sorting {

  ghost predicate SortedBy<T>(s: seq<T>, key: T -> int) {
    forall i, j :: 0 <= i < j < |s| ==> key(s[i]) <= key(s[j])
  }

  /** Places `x` before the first element whose key is not smaller. */
  function Insert<T>(x: T, s: seq<T>, key: T -> int): (r: seq<T>)
    requires SortedBy(s, key)
    ensures SortedBy(r, key)
    ensures multiset(r) == multiset(s) + multiset{x}
    ensures |r| == |s| + 1
    ensures r[0] == x || (|s| > 0 && r[0] == s[0])
  {
    if |s| == 0 then [x]
    else if key(x) <= key(s[0]) then [x] + s
    else
      var rest := Insert(x, s[1..], key);
      assert s == [s[0]] + s[1..];
      [s[0]] + rest
  }

  /** Insertion sort: a sorted rearrangement of `s`. */
  function SortBy<T>(s: seq<T>, key: T -> int): (r: seq<T>)
    ensures SortedBy(r, key)
    ensures multiset(r) == multiset(s)
  {
    if |s| == 0 then []
    else
      assert s == [s[0]] + s[1..];
      Insert(s[0], SortBy(s[1..], key), key)
  }
}

=== FILE: strings.dfy ===
/** The two `indexOf` searches the handlers use: `Array.prototype.indexOf`
    for an element and `String.prototype.indexOf` for a substring, each
    related to the membership it stands for. */
module Strings {

  /** `s.indexOf(x)`: the first position of `x` in `s`, or -1. */
  function IndexOf<T(==)>(s: seq<T>, x: T): (r: int)
    ensures r == -1 <==> x !in s
    ensures r != -1 ==> 0 <= r < |s| && s[r] == x
    ensures r != -1 ==> forall j :: 0 <= j < r ==> s[j] != x
  {
    if |s| == 0 then -1
    else if s[0] == x then 0
    else
      var k := IndexOf(s[1..], x);
      if k == -1 then -1 else k + 1
  }

  /** `t` occurs in `s` starting at position `i`. */
  predicate OccursAt(s: string, t: string, i: int) {
    0 <= i && i + |t| <= |s| && s[i..i + |t|] == t
  }

  /** `t` occurs somewhere in `s`. */
  ghost predicate Contains(s: string, t: string) {
    exists i :: OccursAt(s, t, i)
  }

  /** `s.indexOf(t, from)`: the first position at or after `from` where `t`
      occurs, or -1. */
  function FindFrom(s: string, t: string, from: nat): (r: int)
    ensures r == -1 <==> forall i :: from <= i ==> !OccursAt(s, t, i)
    ensures r != -1 ==> from <= r && OccursAt(s, t, r)
    ensures r != -1 ==> forall i :: from <= i < r ==> !OccursAt(s, t, i)
    decreases |s| - from
  {
    if from + |t| > |s| then -1
    else if s[from..from + |t|] == t then
      assert OccursAt(s, t, from);
      from
    else FindFrom(s, t, from + 1)
  }

  /** `s.indexOf(t)`. */
  function FindSubstring(s: string, t: string): (r: int)
    ensures r == -1 <==> !Contains(s, t)
    ensures r != -1 ==> OccursAt(s, t, r)
  {
    FindFrom(s, t, 0)
  }
}

=== FILE: urls.dfy ===
/** URLs reduced to what the handlers touch: everything before the query
    string, and the ordered list of query pairs. `Set` follows the WHATWG
    `URLSearchParams.set` algorithm; `QueryParam` is how Express's query parser
    presents one key of that list to a handler. */
module Urls {
  import opened JsValues

  datatype Pair = Pair(name: string, value: string)

  /** `href` is the scheme, authority and path; `query` the search params. */
  datatype Url = Url(href: string, query: seq<Pair>)

  /** `searchParams.getAll(name)`: the values stored under `name`, in order. */
  function GetAll(q: seq<Pair>, name: string): (vs: seq<string>)
    ensures |vs| <= |q|
  {
    if |q| == 0 then []
    else if q[0].name == name then [q[0].value] + GetAll(q[1..], name)
    else GetAll(q[1..], name)
  }

  /** The pairs whose name is not `name`, in order. */
  function Without(q: seq<Pair>, name: string): (r: seq<Pair>)
    ensures forall i :: 0 <= i < |r| ==> r[i].name != name
    ensures GetAll(r, name) == []
  {
    if |q| == 0 then []
    else if q[0].name == name then Without(q[1..], name)
    else [q[0]] + Without(q[1..], name)
  }

  /** Overwrites the first pair named `name` and drops every later one. */
  function ReplaceFirst(q: seq<Pair>, name: string, value: string): seq<Pair>
  {
    if |q| == 0 then []
    else if q[0].name == name then [Pair(name, value)] + Without(q[1..], name)
    else [q[0]] + ReplaceFirst(q[1..], name, value)
  }

  /** `searchParams.set(name, value)`: if some pair is named `name`, the
      first one takes the new value and the others are removed; otherwise
      the pair is appended. */
  function Set(q: seq<Pair>, name: string, value: string): (r: seq<Pair>)
    ensures GetAll(q, name) == [] ==> r == q + [Pair(name, value)]
  {
    if GetAll(q, name) == [] then q + [Pair(name, value)]
    else ReplaceFirst(q, name, value)
  }

  /** How Express's query parser hands the key `name` to a handler: no
      occurrence is `undefined`, one is a string, several are an array. */
  function QueryParam(q: seq<Pair>, name: string): (p: Param)
    ensures p.Missing? <==> GetAll(q, name) == []
    ensures p.Str? <==> |GetAll(q, name)| == 1
    ensures p.Str? ==> p.text == GetAll(q, name)[0]
    ensures p.Multi? ==> p.items == GetAll(q, name)
  {
    var vs := GetAll(q, name);
    if |vs| == 0 then Missing
    else if |vs| == 1 then Str(vs[0])
    else Multi(vs)
  }

  /** `name=value` pairs joined with `&`. */
  function JoinQuery(q: seq<Pair>): string
  {
    if |q| == 0 then ""
    else if |q| == 1 then q[0].name + "=" + q[0].value
    else q[0].name + "=" + q[0].value + "&" + JoinQuery(q[1..])
  }

  /** `url.toString()`: the query is introduced by `?` only when present. */
  function Serialize(u: Url): string
  {
    if |u.query| == 0 then u.href else u.href + "?" + JoinQuery(u.query)
  }

  // ---------------------------------------------------------------------
  // Properties of `Set`

  lemma {:induction false} GetAllAppend(a: seq<Pair>, b: seq<Pair>, name: string)
    ensures GetAll(a + b, name) == GetAll(a, name) + GetAll(b, name)
  {
    if |a| > 0 {
      assert (a + b)[1..] == a[1..] + b;
      GetAllAppend(a[1..], b, name);
    } else {
      assert a + b == b;
    }
  }

  lemma {:induction false} GetAllWithout(q: seq<Pair>, name: string, other: string)
    requires other != name
    ensures GetAll(Without(q, name), other) == GetAll(q, other)
  {
    if |q| > 0 {
      GetAllWithout(q[1..], name, other);
    }
  }

  lemma {:induction false} WithoutIdempotent(q: seq<Pair>, name: string)
    ensures Without(Without(q, name), name) == Without(q, name)
  {
    if |q| > 0 {
      WithoutIdempotent(q[1..], name);
    }
  }

  lemma {:induction false} ReplaceFirstGetAll(q: seq<Pair>, name: string, value: string)
    requires GetAll(q, name) != []
    ensures GetAll(ReplaceFirst(q, name, value), name) == [value]
  {
    if q[0].name != name {
      ReplaceFirstGetAll(q[1..], name, value);
    }
  }

  lemma {:induction false} ReplaceFirstOthers(q: seq<Pair>, name: string, value: string, other: string)
    requires other != name
    ensures GetAll(ReplaceFirst(q, name, value), other) == GetAll(q, other)
  {
    if |q| > 0 {
      if q[0].name == name {
        GetAllWithout(q[1..], name, other);
      } else {
        ReplaceFirstOthers(q[1..], name, value, other);
      }
    }
  }

  lemma {:induction false} ReplaceFirstWithout(q: seq<Pair>, name: string, value: string)
    ensures Without(ReplaceFirst(q, name, value), name) == Without(q, name)
  {
    if |q| > 0 {
      if q[0].name == name {
        WithoutIdempotent(q[1..], name);
      } else {
        ReplaceFirstWithout(q[1..], name, value);
      }
    }
  }

  lemma {:induction false} WithoutAppend(a: seq<Pair>, b: seq<Pair>, name: string)
    ensures Without(a + b, name) == Without(a, name) + Without(b, name)
  {
    if |a| > 0 {
      assert (a + b)[1..] == a[1..] + b;
      WithoutAppend(a[1..], b, name);
    } else {
      assert a + b == b;
    }
  }

  lemma {:induction false} GetAllHas(q: seq<Pair>, name: string, i: int)
    requires 0 <= i < |q| && q[i].name == name
    ensures GetAll(q, name) != []
  {
    if q[0].name != name {
      GetAllHas(q[1..], name, i - 1);
    }
  }

  lemma {:induction false} ReplaceFirstAt(q: seq<Pair>, name: string, value: string, i: int)
    requires 0 <= i < |q| && q[i].name == name
    requires forall j :: 0 <= j < i ==> q[j].name != name
    ensures ReplaceFirst(q, name, value) == q[..i] + [Pair(name, value)] + Without(q[i + 1..], name)
  {
    if i > 0 {
      ReplaceFirstAt(q[1..], name, value, i - 1);
      assert q[1..][..i - 1] == q[1..i];
      assert q[1..][i..] == q[i + 1..];
      assert q[..i] == [q[0]] + q[1..i];
    }
  }

  /** `set` on a key that is present keeps the first pair under that name
      where it stands, with the new value, and drops every later one; the
      pairs before it and the other pairs after it stay in order. */
  lemma SetInPlace(q: seq<Pair>, name: string, value: string, i: int)
    requires 0 <= i < |q| && q[i].name == name
    requires forall j :: 0 <= j < i ==> q[j].name != name
    ensures Set(q, name, value) == q[..i] + [Pair(name, value)] + Without(q[i + 1..], name)
  {
    GetAllHas(q, name, i);
    ReplaceFirstAt(q, name, value, i);
  }

  /** After `set`, the key holds exactly the new value: an old value, or a
      repeated key, does not survive. */
  lemma SetGetAll(q: seq<Pair>, name: string, value: string)
    ensures GetAll(Set(q, name, value), name) == [value]
  {
    if GetAll(q, name) == [] {
      GetAllAppend(q, [Pair(name, value)], name);
    } else {
      ReplaceFirstGetAll(q, name, value);
    }
  }

  /** `set` leaves the values of every other key as they were. */
  lemma SetKeepsOthers(q: seq<Pair>, name: string, value: string, other: string)
    requires other != name
    ensures GetAll(Set(q, name, value), other) == GetAll(q, other)
  {
    if GetAll(q, name) == [] {
      GetAllAppend(q, [Pair(name, value)], other);
    } else {
      ReplaceFirstOthers(q, name, value, other);
    }
  }

  /** Nothing but the key being set changes: the pairs under other names
      stay, in their order. */
  lemma SetKeepsRest(q: seq<Pair>, name: string, value: string)
    ensures Without(Set(q, name, value), name) == Without(q, name)
  {
    if GetAll(q, name) == [] {
      WithoutAppend(q, [Pair(name, value)], name);
    } else {
      ReplaceFirstWithout(q, name, value);
    }
  }

  /** A handler reading the key after `set` sees exactly the new string. */
  lemma SetThenParam(q: seq<Pair>, name: string, value: string)
    ensures QueryParam(Set(q, name, value), name) == Str(value)
  {
    SetGetAll(q, name, value);
  }
}

=== FILE: values.dfy ===
/** JavaScript values as the route handlers see them: optional values,
    upstream replies, and query-string / form parameters with their
    truthiness rules. */
module JsValues {

  datatype Option<+T> = None | Some(value: T)

  /** The settled promise of one upstream client call: the decoded reply,
      or the error the client threw (transport failure or refused status). */
  datatype Result<+T> = Ok(value: T) | Err(detail: string)

  /** A query-string or form field as Express parses it: absent, a single
      string, or an array (the key was repeated). */
  datatype Param = Missing | Str(text: string) | Multi(items: seq<string>)

  /** JavaScript truthiness of a parameter: `undefined` and `""` are falsy,
      every array is truthy, even an empty one. */
  predicate Truthy(p: Param) {
    (p.Str? && p.text != "") || p.Multi?
  }

  /** The guard `p && isString(p)` used before a parameter is handed to an
      upstream call that needs a string. */
  predicate NonEmptyString(p: Param) {
    p.Str? && p.text != ""
  }

  /** `String(x)` of a possibly undefined string. */
  function JsString(o: Option<string>): (r: string)
    ensures o.Some? ==> r == o.value
    ensures o.None? ==> r == "undefined"
  {
    match o
    case Some(s) => s
    case None => "undefined"
  }
}

=== FILE: verification.dfy ===
/** The email verification screen: the fetched flow is rendered as it is. */
module Verification {
  import opened JsValues
  import opened Protocol

  /** The verification route's handler. */
  function HandleVerification(cfg: Config, request: Param, reply: Result<FlowResponse>): (r: Reply)
    ensures !Truthy(request) ==> r == Reply(Redirect(Href(FlowInitHref(cfg, VerificationFlow))), [])
    ensures Truthy(request) ==> r.calls == [GetFlow(VerificationFlow, request)]
    // The flow restarts exactly when the id is falsy or Kratos answers 404.
    ensures r.outcome == Redirect(Href(FlowInitHref(cfg, VerificationFlow))) <==>
      !Truthy(request) || (reply.Ok? && reply.value.status == 404)
    ensures Truthy(request) && reply.Ok? && reply.value.status != 404 && reply.value.status != 200 ==>
      r.outcome == Fail(UnexpectedStatus(reply.value.status))
    ensures Truthy(request) && reply.Err? ==> r.outcome == Fail(UpstreamFailure(reply.detail))
    // Rendering happens only on success, with the body untouched.
    ensures r.outcome.Render? <==> Truthy(request) && reply.Ok? && reply.value.status == 200
    ensures r.outcome.Render? ==> r.outcome == Render(200, "verification", VerificationView(reply.value.body))
  {
    var init := Redirect(Href(FlowInitHref(cfg, VerificationFlow)));
    if !Truthy(request) then Reply(init, [])
    else
      var get := GetFlow(VerificationFlow, request);
      match reply
      case Err(e) => Reply(Fail(UpstreamFailure(e)), [get])
      case Ok(response) =>
        if response.status == 404 then Reply(init, [get])
        else if response.status != 200 then Reply(Fail(UnexpectedStatus(response.status)), [get])
        else Reply(Render(200, "verification", VerificationView(response.body)), [get])
  }
}
